=== FILE: README.md ===
# Telegram qBittorrent bot: intake state machine, status listing, client guard

This project models the core of a Telegram bot that hands torrents to a
qBittorrent daemon, and proves properties of that model in Dafny.

- **Intake** (`intake.dfy`, `scenarios.dfy`). A user sends a magnet link or a
  `.torrent` document. The bot keeps it as that user's *pending* torrent and
  offers two folder buttons. Pressing one connects to the daemon and adds the
  torrent with the folder's save path and category. It then deletes a staged
  file and forgets the pending entry. The state `Intake.Bot` holds:
  - the pending map `user -> Magnet(link) | File(path)`;
  - the set of staged temporary files;
  - the shared daemon client;
  - a log of every request the client wrapper issued to the library. The
    version query after a login is folded into the login, and an issued add
    is logged even when the library raised before reaching the daemon.
- **Status listing** (`status.dfy`). `/status` connects and lists the jobs.
  It shows the five most recently added jobs, sorted stably by `added_on`
  descending, with a missing value counting as 0. Each job gets a name cut to
  40 characters plus `...`, a state glyph from a fixed table with a fallback,
  and its category, or `None` when the category is empty.
- **Client guard** (`daemon.dfy`). The wrapper holds an optional library
  session. Every add or list call fails at once when there is no session.
  `connect` stores the session before it logs in, so a failed login still
  leaves a session behind. No operation lets a library error escape: each
  failure becomes `false` or `None`.
- `text.dfy` holds Python's `startswith`, `endswith` and POSIX `os.path.join`.
  `options.dfy` holds the option type.

The environment is passed in as parameters. These decide whether:
- a document download succeeds (`downloads`);
- the library constructor returns (`constructs`);
- the login succeeds (`logsIn`);
- an add or list call returns rather than raising (`answers`).

Opening a staged file succeeds exactly when its path string is still in the
staged set. Paths are compared as strings, not resolved on disk. The folder
paths and the temporary directory are opaque settings.

Behaviours of the code that the model keeps as they are:
- **Failed connect.** The handler returns before the entry is deleted
  (bot.py:219-221). The pending entry and its staged file therefore survive,
  and pressing a button again retries. They are not consumed.
- **Failed listing.** After a successful connect, a listing that fails shows
  as "no active torrents", exactly like an empty one (bot.py:74-75).
- **Replaced upload.** A new submission that replaces a pending file leaves
  the old staged file on disk (`Scenarios.ReplacedFileStaysStaged`).
- **Shared temporary path.** Staged paths are the temporary directory joined
  with the document's own name. Two users who upload the same name therefore
  share one staged file. The first user's dispatch deletes it, and the second
  user's dispatch then fails (`Scenarios.SharedStagedPathLost`). The second
  download also overwrites the first user's file, so the first dispatch hands
  the second user's torrent to the daemon. Staged files are paths without
  contents here, so the model does not show this. Nor does it catch two different
  names that reach the same file (see "## Left out").

## Model

| member | source | states |
|---|---|---|
| Daemon.Connect | qbittorrent_client.py:25-47 | returns true exactly when the client was built and the login succeeded; true implies a session; once built, the session is kept even if the login fails; a constructor failure changes nothing and contacts nobody; a session is never cleared |
| Daemon.AddMagnet | qbittorrent_client.py:49-75 | succeeds exactly when a session exists and the library call returns; with no session it sends nothing; otherwise it sends exactly one add-by-URL request with the given link, save path and category |
| Daemon.AddFile | qbittorrent_client.py:77-104 | succeeds exactly when a session exists, the file opens and the library call returns; with no session or an unreadable file it sends nothing; otherwise one add-by-file request |
| Daemon.TorrentsInfo | qbittorrent_client.py:106-116 | yields the daemon's list, unchanged, exactly when a session exists and the call returns; `None` otherwise; contacts the daemon only with a session |
| Daemon.FreshClientShortCircuits | qbittorrent_client.py:23 | on a freshly constructed client both adds return false and the listing returns `None`, with no request sent |
| Daemon.FailedLoginStillSends | qbittorrent_client.py:32-47 | after a connect whose login failed (result false), a magnet add request is still issued and its result is the library call's |
| Daemon.ConnectReplacesSession | qbittorrent_client.py:32-41 | a connect whose constructor returns replaces any earlier session with one built from the configuration, so two clients with the same configuration end up identical whatever they held before |
| Status.SortIsOrderedPermutation | bot.py:80 | the sort returns the same jobs with the same multiplicities, in non-increasing `added_on` order (missing = 0) |
| Status.SortIsStable | bot.py:80 | for every timestamp, the jobs carrying it appear in the sorted list in the daemon's order |
| Status.LastFiveIsSortedSublist | bot.py:80-81 | the shown jobs are a sub-multiset of the listing, in descending `added_on` order |
| Status.LastFiveAreMostRecent | bot.py:80-81 | no job left out of the shown ones was added later than any shown job |
| Status.TopFiveExample | bot.py:80-81 | for timestamps 10, 50, 30, 20, 5, 40 the shown jobs are those at 50, 40, 30, 20, 10 |
| Status.DisplayName | bot.py:88 | a shown name has at most 43 characters; it is the name itself when that has at most 40; otherwise the first 40 characters followed by `...` |
| Status.FallbackExactlyForUnknown | bot.py:96-110 | a state gets the fallback glyph if and only if it is not one of the thirteen states of the table |
| Status.CategoryLabel | bot.py:116 | the label is never empty; a non-empty category is shown as is, an empty one as `None` |
| Status.StatusCommand | bot.py:70-118 | reports failure exactly when connect fails; "no active torrents" exactly when connected and the listing failed or was empty; otherwise the total count and one row per shown job, numbered from 1, with its glyph, shortened name and category label; sends a login and then a listing request when connected, only the login when the login fails, nothing when the constructor fails |
| Status.ListingShape | bot.py:87-88 | a listing has between one and five rows, numbered 1, 2, ..., with names of at most 43 characters, most recent first |
| Intake.Resolve | bot.py:206-216 | a recognised button token is the callback data of the folder it resolves to; an unrecognised one is the callback data of no folder |
| Intake.ResolveInvertsToken | bot.py:142-143 | each folder button's callback data resolves to that folder |
| Intake.CategoryIdentifiesFolder | bot.py:206-213 | each folder's save path and category form a configured destination, and distinct folders have distinct categories |
| Intake.StagedPath | bot.py:165-166 | a staged path built from a `.torrent` file name still ends in `.torrent` |
| Intake.HandleMagnet | bot.py:123-137 | a text not starting with `magnet:?` changes nothing; otherwise it becomes the user's pending entry, replacing any earlier one; other users' entries and the staged files are untouched; no request is sent |
| Intake.HandleTorrentFile | bot.py:154-174 | a name not ending in `.torrent`, or a failed download, changes nothing; otherwise the staged path becomes the user's pending entry, replacing any earlier one; the path is staged; other users and other staged files are untouched; no request is sent |
| Intake.ButtonCallback | bot.py:191-254 | without a pending entry, or for an unrecognised token, nothing changes and nothing is sent. If connect fails, the entry and the staged files stay and no add is sent. After a connect, the entry is removed and a staged file is deleted whatever the outcome; a magnet is sent only by URL and a file only by contents, with the chosen folder's path and category; success is reported exactly when the file was readable and the add returned |
| Intake.StatusRequest | bot.py:70-120 | the status command leaves pending entries and staged files alone and sends no add request |
| Intake.StartIsValid | bot.py:27-38 | a fresh process has nothing pending, a client without a session (the wrapper starts with `client = None`, qbittorrent_client.py:23), and satisfies the intake invariant |
| Intake.ButtonKeepsValid | bot.py:206-236 | a button press keeps the intake invariant: every add request logged (`AddUrls`/`AddFiles`) carries a validated link or `.torrent` path and a configured destination; login and listing requests are unconstrained |
| Intake.ApplyKeepsValid | bot.py:123-254 | every update keeps the invariant: entries passed validation, staged files are `.torrent`, and every add request logged (`AddUrls`/`AddFiles`) carries a validated link or `.torrent` path and a configured destination; login and listing requests are unconstrained |
| Intake.RunKeepsValid | bot.py:123-254 | any sequence of updates from a valid state keeps the invariant and the settings |
| Scenarios.ResubmissionReplaces | bot.py:170-174 | of two accepted submissions from one user only the second stays pending, and other users' entries are unchanged |
| Scenarios.TakenOnlyOnce | bot.py:198-201 | once a press has got through the connect, any further press by that user finds no pending entry and changes nothing |
| Scenarios.RetryAfterConnectFailure | bot.py:218-221 | after a failed connect the entry is still pending, and a later successful press adds that same link |
| Scenarios.RetryAfterInvalidSelection | bot.py:205-216 | an unrecognised token changes nothing, and a later valid press still dispatches the entry |
| Scenarios.FileCleanedUpEitherWay | bot.py:231-241 | after a dispatch attempt on a file entry the staged file and the entry are gone, and success holds exactly when the daemon answered and the file was still staged |
| Scenarios.MissingStagedFileFails | qbittorrent_client.py:93-104 | a file entry whose staged file is gone fails after the login request, with no add request, and the entry is dropped |
| Scenarios.SameNameSharesStagedPath | bot.py:164-174 | two users uploading the same file name both have the same staged path pending |
| Scenarios.SharedStagedPathLost | bot.py:237-241 | when two users wait on one staged file, the first dispatch succeeds and deletes it, and the second fails with no add request sent |
| Scenarios.ReplacedFileStaysStaged | bot.py:133-137 | replacing a pending file entry by a magnet link leaves the file staged with no entry pointing at it |
| Scenarios.MagnetToMovies | bot.py:123-254 | magnet link, then "Movies", daemon up: success with the movies folder, the daemon got the link with the movies path and category, and nothing is left pending |
| Scenarios.MagnetWhileDaemonDown | bot.py:219-221 | magnet link, then a folder, with the library constructor failing: nothing is sent, no session exists, and the link is still pending |
| Scenarios.DaemonSeesOnlyValidatedInput | bot.py:127-236 | from a fresh start, for any updates and any daemon behaviour, every add request issued (`AddUrls`/`AddFiles`) carries a `magnet:?` link or a `.torrent` path and one of the two configured destinations, and every pending entry passed validation; login and listing requests are unconstrained |

## Left out

- Telegram transport: updates, keyboards, reply and edit texts, handler registration and `main` (bot.py:257-303). Replies are modelled only as the kind of answer (`Intake.Reply`).
- The `/start` and `/help` texts (bot.py:41-67): they hold no logic.
- The connect in `main` (bot.py:293) before any update is handled. `Intake.Start` is the import-time state, whose client has no session. In the running program the client already holds a session when handlers run, whenever that first constructor returned.
- The handler filters of `main`: the magnet handler only ever receives texts matching `^magnet:\?`. The model lets any text reach `HandleMagnet`, so its own validation branch is reachable.
- Environment loading and logging: folder paths, the temporary directory and the daemon URL and credentials are opaque settings.
- The qBittorrent library. Its constructor, login, add and list calls are oracle booleans. The login oracle also covers the version query on qbittorrent_client.py:40, whose failure is caught in the same way; that query is not logged as a request of its own. What an add call returns when it does not raise is ignored, as the wrapper ignores it.
- File I/O: `get_file`, `download_to_drive`, `open` and `os.remove`. The staged files are an abstract set of paths. A failed removal and a missing file both leave the path absent.
- Intake.ButtonCallback: staged paths are compared as strings. Two document names that reach one file through `.`, `..` or a doubled `/` (`x.torrent` and `./x.torrent` give `/tmp/x.torrent` and `/tmp/./x.torrent`) count as two staged files. The model then lets both dispatches succeed, while in the program the first `os.remove` (bot.py:239) makes the second `open` (qbittorrent_client.py:94) fail. That is the interference `Scenarios.SharedStagedPathLost` shows for equal names.
- Intake.ButtonCallback: a failure of the Telegram calls `query.answer()` (bot.py:194) or the final `edit_message_text` (bot.py:245-251) is not modelled. If the final edit raised, the add would already be sent and a staged file removed, yet the pending entry would survive because the `del` at bot.py:254 comes after it. The model always removes the entry after a successful connect.
- Intake.HandleTorrentFile: a download that fails part-way may leave a partial file on disk. The model leaves the staged set unchanged in that case.
- The document metadata fetch before validation (bot.py:157) has no effect on the modelled state. A document without a file name is not modelled.
- Progress, rates and uploaded volume, with their `.1f` and `.2f` formatting (bot.py:89-92, bot.py:113-115). These are floating-point renderings.
- The emoji themselves: glyphs are the enumeration `Status.Glyph`.
- Async interleaving of handlers. Updates are handled one after another, each to completion (`Intake.Run`).

=== FILE: daemon.dfy ===
/** The qBittorrent client wrapper: a client object that may or may not hold
    a library session, and four operations that swallow every library error
    into `false` or `None`. The library itself is not modelled: whether its
    constructor, its login or an API call raises is an oracle parameter, and
    every request the wrapper issues to the library is reported as a `Call`,
    whether or not the library then gets it through to the daemon. */
module Daemon {
  import opened Options

  /** The URL and credentials the client is configured with. */
  datatype Config = Config(url: string, username: string, password: string)

  /** A library client object built from the configuration. Whether it has
      authenticated is deliberately not part of it: the wrapper keeps the
      object after a failed login. */
  datatype Session = Session(host: string, username: string, password: string)

  datatype Client = Client(config: Config, session: Option<Session>)

  /** The fields of one daemon job that the status listing reads. A job
      without an `added_on` field has `addedOn == None`. */
  datatype Job = Job(name: string, addedOn: Option<int>, state: string, category: string)

  /** A request the wrapper issues to the library. The version query that
      follows a login is not listed on its own: its outcome is folded into
      the login's. */
  datatype Call =
    | LogIn
    | AddUrls(link: string, savePath: string, category: string)
    | AddFiles(path: string, savePath: string, category: string)
    | ListTorrents

  datatype Connected = Connected(client: Client, ok: bool, calls: seq<Call>)
  datatype Attempt = Attempt(ok: bool, calls: seq<Call>)
  datatype Listed = Listed(jobs: Option<seq<Job>>, calls: seq<Call>)

  function SessionFor(config: Config): Session
  {
    Session(config.url, config.username, config.password)
  }

  /** The constructor: a fresh client holds no session. */
  function NewClient(config: Config): (c: Client)
    ensures c.config == config
    ensures c.session.None?
  {
    Client(config, None)
  }

  /** `connect`. The session is assigned as soon as the library constructor
      returns (`constructs`) and before the login is tried (`logsIn`), so a
      failed login leaves a session in place; a constructor that raises
      leaves the previous session, if any, untouched. Every failure is
      returned as `false`. */
  function Connect(c: Client, constructs: bool, logsIn: bool): (r: Connected)
    ensures r.client.config == c.config
    ensures r.ok <==> constructs && logsIn
    ensures r.ok ==> r.client.session.Some?
    ensures constructs ==> r.client.session == Some(SessionFor(c.config))
    ensures !constructs ==> r.client == c && r.calls == []
    ensures c.session.Some? ==> r.client.session.Some?
    ensures forall k | k in r.calls :: k == LogIn
  {
    if !constructs then Connected(c, false, [])
    else Connected(c.(session := Some(SessionFor(c.config))), logsIn, [LogIn])
  }

  /** `add_torrent_magnet`: without a session it fails without contacting
      the daemon; otherwise it succeeds exactly when the library call
      returns instead of raising (`answers`). */
  function AddMagnet(c: Client, link: string, savePath: string, category: string, answers: bool): (r: Attempt)
    ensures r.ok <==> c.session.Some? && answers
    ensures c.session.None? ==> r.calls == []
    ensures c.session.Some? ==> r.calls == [AddUrls(link, savePath, category)]
  {
    if c.session.None? then Attempt(false, [])
    else Attempt(answers, [AddUrls(link, savePath, category)])
  }

  /** `add_torrent_file`: like `AddMagnet`, and in addition the file must be
      readable (`readable`) before any request is issued. */
  function AddFile(c: Client, path: string, savePath: string, category: string, readable: bool, answers: bool): (r: Attempt)
    ensures r.ok <==> c.session.Some? && readable && answers
    ensures !(c.session.Some? && readable) ==> r.calls == []
    ensures c.session.Some? && readable ==> r.calls == [AddFiles(path, savePath, category)]
  {
    if c.session.None? then Attempt(false, [])
    else if !readable then Attempt(false, [])
    else Attempt(answers, [AddFiles(path, savePath, category)])
  }

  /** `get_torrents_info`: `None` without a session or when the library call
      raises, otherwise the daemon's job list as it came. */
  function TorrentsInfo(c: Client, answers: bool, jobs: seq<Job>): (r: Listed)
    ensures r.jobs.Some? <==> c.session.Some? && answers
    ensures r.jobs.Some? ==> r.jobs.value == jobs
    ensures c.session.None? ==> r.calls == []
    ensures c.session.Some? ==> r.calls == [ListTorrents]
  {
    if c.session.None? then Listed(None, [])
    else if !answers then Listed(None, [ListTorrents])
    else Listed(Some(jobs), [ListTorrents])
  }

  /** Before any `connect`, every guarded operation fails and no request
      is issued. */
  lemma FreshClientShortCircuits(config: Config, link: string, path: string, savePath: string,
                                 category: string, readable: bool, answers: bool, jobs: seq<Job>)
    ensures AddMagnet(NewClient(config), link, savePath, category, answers) == Attempt(false, [])
    ensures AddFile(NewClient(config), path, savePath, category, readable, answers) == Attempt(false, [])
    ensures TorrentsInfo(NewClient(config), answers, jobs) == Listed(None, [])
  {
  }

  /** A `connect` that built the library client but failed to log in still
      answers `false`, yet the following add is not short-circuited: it is
      issued to the library and its outcome is the library call's. */
  lemma FailedLoginStillSends(c: Client, link: string, savePath: string, category: string, answers: bool)
    ensures var conn := Connect(c, true, false);
      && !conn.ok
      && AddMagnet(conn.client, link, savePath, category, answers)
         == Attempt(answers, [AddUrls(link, savePath, category)])
  {
  }

  /** A successful `connect` replaces whatever session the client held:
      two clients with the same configuration end up identical, whatever
      their sessions were before. */
  lemma ConnectReplacesSession(c: Client, d: Client, logsIn: bool)
    requires c.config == d.config
    ensures Connect(c, true, logsIn).client == Connect(d, true, logsIn).client
    ensures Connect(c, true, logsIn).client.session == Some(SessionFor(c.config))
  {
  }
}

=== FILE: intake.dfy ===
/** The bot's torrent intake. A user sends a magnet link or a `.torrent`
    file; the bot remembers it as that user's pending torrent and offers two
    folder buttons; pressing one connects to the daemon, hands the torrent
    over with the folder's save path and category, and forgets the pending
    entry.

    The state `Bot` holds the pending map, the set of staged temporary files,
    the shared daemon client and the log of every request the client wrapper
    issued to the library. Everything the environment decides (whether a download, the
    library constructor, the login or an add call succeeds) is a parameter. */
module Intake {
  import opened Options
  import opened Text
  import opened Daemon
  import Status

  type UserId = int

  /** What a user has sent and not yet placed: a magnet link, or the path
      of the staged `.torrent` file. */
  datatype Pending = Magnet(link: string) | File(path: string)

  datatype Folder = Movies | TvShows

  /** MOVIES_FOLDER, TV_SHOWS_FOLDER and the system temporary directory. */
  datatype Settings = Settings(moviesFolder: string, tvShowsFolder: string, tempDir: string)

  datatype Bot = Bot(
    settings: Settings,
    pending: map<UserId, Pending>,
    staged: set<string>,
    client: Client,
    log: seq<Call>)

  /** The message the bot answers with; `Aborted` is an exception escaping
      the handler, after which nothing is answered. */
  datatype Reply =
    | InvalidMagnet
    | InvalidFile
    | ChooseFolder
    | Aborted
    | NoPending
    | InvalidSelection
    | ConnectFailed
    | Added(folder: Folder, savePath: string)
    | AddFailed
    | StatusShown(report: Status.Report)

  datatype Step = Step(bot: Bot, reply: Reply)

  const MagnetPrefix: string := "magnet:?"
  const TorrentSuffix: string := ".torrent"

  /** A fresh process: nothing pending, nothing staged, a client without a
      session and no request sent yet. */
  function Start(settings: Settings, config: Config): Bot
  {
    Bot(settings, map[], {}, NewClient(config), [])
  }

  // ---------------------------------------------------------------------
  // Folders
  // ---------------------------------------------------------------------

  /** The callback data of each folder button. */
  function Token(f: Folder): string
  {
    match f
    case Movies => "folder_movies"
    case TvShows => "folder_tvshows"
  }

  /** The folder a pressed button names, if it names one. */
  function Resolve(token: string): (r: Option<Folder>)
    ensures r.Some? ==> Token(r.value) == token
    ensures r.None? ==> forall f: Folder :: Token(f) != token
  {
    if token == "folder_movies" then Some(Movies)
    else if token == "folder_tvshows" then Some(TvShows)
    else None
  }

  /** Both buttons are recognised, each as its own folder. */
  lemma ResolveInvertsToken(f: Folder)
    ensures Resolve(Token(f)) == Some(f)
  {
  }

  function SavePath(s: Settings, f: Folder): string
  {
    match f
    case Movies => s.moviesFolder
    case TvShows => s.tvShowsFolder
  }

  function Category(f: Folder): (r: string)
    ensures r != ""
  {
    match f
    case Movies => "Movies"
    case TvShows => "TV Shows"
  }

  /** The save path and category pairs the bot ever sends. */
  predicate IsDestination(s: Settings, savePath: string, category: string)
  {
    || (savePath == s.moviesFolder && category == "Movies")
    || (savePath == s.tvShowsFolder && category == "TV Shows")
  }

  /** The two folders have distinct categories, so the category alone tells
      which folder a request was for. */
  lemma CategoryIdentifiesFolder(s: Settings, f: Folder, g: Folder)
    ensures IsDestination(s, SavePath(s, f), Category(f))
    ensures Category(f) == Category(g) ==> f == g
  {
  }

  // ---------------------------------------------------------------------
  // Submissions
  // ---------------------------------------------------------------------

  /** The path a document is downloaded to: the temporary directory joined
      with the document's own file name. */
  function StagedPath(s: Settings, fileName: string): (p: string)
    ensures EndsWith(fileName, TorrentSuffix) ==> EndsWith(p, TorrentSuffix)
  {
    var p := Join(s.tempDir, fileName);
    assert EndsWith(fileName, TorrentSuffix) ==> EndsWith(p, TorrentSuffix) by {
      if EndsWith(fileName, TorrentSuffix) {
        JoinKeepsSuffix(s.tempDir, fileName, TorrentSuffix);
      }
    }
    p
  }

  /** `handle_magnet_link`: a text starting with `magnet:?` becomes the
      user's pending torrent, replacing any earlier one; anything else is
      refused and changes nothing. The daemon is not contacted. */
  function HandleMagnet(b: Bot, user: UserId, text: string): (r: Step)
    ensures !StartsWith(text, MagnetPrefix) ==> r.bot == b && r.reply == InvalidMagnet
    ensures StartsWith(text, MagnetPrefix) ==>
      && r.reply == ChooseFolder
      && user in r.bot.pending && r.bot.pending[user] == Magnet(text)
      && r.bot.pending - {user} == b.pending - {user}
      && r.bot.staged == b.staged
    ensures r.bot.settings == b.settings && r.bot.client == b.client && r.bot.log == b.log
  {
    if !StartsWith(text, MagnetPrefix) then Step(b, InvalidMagnet)
    else Step(b.(pending := b.pending[user := Magnet(text)]), ChooseFolder)
  }

  /** `handle_torrent_file`: a document whose name ends in `.torrent` is
      downloaded into the temporary directory (`downloads` says whether that
      succeeded) and its path becomes the user's pending torrent, replacing
      any earlier one. Any other document is refused and changes nothing; a
      failed download escapes the handler before anything is recorded. */
  function HandleTorrentFile(b: Bot, user: UserId, fileName: string, downloads: bool): (r: Step)
    ensures !EndsWith(fileName, TorrentSuffix) ==> r.bot == b && r.reply == InvalidFile
    ensures EndsWith(fileName, TorrentSuffix) && !downloads ==> r.bot == b && r.reply == Aborted
    ensures EndsWith(fileName, TorrentSuffix) && downloads ==>
      var path := StagedPath(b.settings, fileName);
      && r.reply == ChooseFolder
      && user in r.bot.pending && r.bot.pending[user] == File(path)
      && r.bot.pending - {user} == b.pending - {user}
      && path in r.bot.staged && r.bot.staged - {path} == b.staged - {path}
    ensures r.bot.settings == b.settings && r.bot.client == b.client && r.bot.log == b.log
  {
    if !EndsWith(fileName, TorrentSuffix) then Step(b, InvalidFile)
    else if !downloads then Step(b, Aborted)
    else
      var path := StagedPath(b.settings, fileName);
      Step(b.(pending := b.pending[user := File(path)], staged := b.staged + {path}), ChooseFolder)
  }

  // ---------------------------------------------------------------------
  // Folder selection
  // ---------------------------------------------------------------------

  /** The request an entry becomes: a magnet link is added by URL, a staged
      file by its contents. */
  function Request(e: Pending, savePath: string, category: string): Call
  {
    match e
    case Magnet(link) => AddUrls(link, savePath, category)
    case File(path) => AddFiles(path, savePath, category)
  }

  /** Whether an entry can be handed over at all: a staged file that is no
      longer on disk fails to open before the daemon is contacted. */
  predicate Readable(b: Bot, e: Pending)
  {
    e.Magnet? || e.path in b.staged
  }

  predicate NoAdds(calls: seq<Call>)
  {
    forall k | k in calls :: !k.AddUrls? && !k.AddFiles?
  }

  /** `button_callback`. Without a pending entry, or for a button that
      names no folder, nothing changes. Otherwise the bot connects; if that
      fails it stops there, keeping the pending entry and its staged file.
      After a connect it sends the entry to the daemon, deletes a staged
      file whatever the outcome, and only then forgets the entry. */
  function ButtonCallback(b: Bot, user: UserId, token: string,
                          constructs: bool, logsIn: bool, answers: bool): (r: Step)
    ensures r.bot.settings == b.settings
    ensures b.log <= r.bot.log
    ensures user !in b.pending ==> r.bot == b && r.reply == NoPending
    ensures user in b.pending && Resolve(token).None? ==> r.bot == b && r.reply == InvalidSelection
    ensures user in b.pending && Resolve(token).Some? ==>
      r.bot.client == Connect(b.client, constructs, logsIn).client
    ensures user in b.pending && Resolve(token).Some? && !(constructs && logsIn) ==>
      && r.reply == ConnectFailed
      && r.bot.pending == b.pending
      && r.bot.staged == b.staged
      && NoAdds(r.bot.log[|b.log|..])
    ensures user in b.pending && Resolve(token).Some? && constructs && logsIn ==>
      var f := Resolve(token).value;
      var e := b.pending[user];
      && r.bot.pending == b.pending - {user}
      && r.bot.staged == (if e.File? then b.staged - {e.path} else b.staged)
      && r.bot.log == b.log + [LogIn]
                      + (if Readable(b, e) then [Request(e, SavePath(b.settings, f), Category(f))] else [])
      && (r.reply == Added(f, SavePath(b.settings, f)) <==> Readable(b, e) && answers)
      && (r.reply == AddFailed <==> !(Readable(b, e) && answers))
  {
    if user !in b.pending then Step(b, NoPending)
    else
      var entry := b.pending[user];
      match Resolve(token)
      case None => Step(b, InvalidSelection)
      case Some(f) =>
        var savePath, category := SavePath(b.settings, f), Category(f);
        var conn := Connect(b.client, constructs, logsIn);
        var connected := b.(client := conn.client, log := b.log + conn.calls);
        if !conn.ok then Step(connected, ConnectFailed)
        else
          var attempt := match entry
            case Magnet(link) => AddMagnet(conn.client, link, savePath, category, answers)
            case File(path) => AddFile(conn.client, path, savePath, category, path in b.staged, answers);
          var staged := if entry.File? then b.staged - {entry.path} else b.staged;
          var after := connected.(log := connected.log + attempt.calls, staged := staged,
                                  pending := b.pending - {user});
          Step(after, if attempt.ok then Added(f, savePath) else AddFailed)
  }

  // ---------------------------------------------------------------------
  // Status command and runs of events
  // ---------------------------------------------------------------------

  /** `status_command` run against the bot's shared client. */
  function StatusRequest(b: Bot, constructs: bool, logsIn: bool, answers: bool, jobs: seq<Job>): (r: Step)
    ensures r.bot.pending == b.pending && r.bot.staged == b.staged && r.bot.settings == b.settings
    ensures b.log <= r.bot.log && NoAdds(r.bot.log[|b.log|..])
    ensures r.reply.StatusShown?
  {
    var polled := Status.StatusCommand(b.client, constructs, logsIn, answers, jobs);
    assert b.log + polled.calls == (b.log + polled.calls)[..|b.log|] + (b.log + polled.calls)[|b.log|..];
    Step(b.(client := polled.client, log := b.log + polled.calls), StatusShown(polled.report))
  }

  /** One incoming update, with the environment's outcomes attached. */
  datatype Event =
    | TextMessage(user: UserId, text: string)
    | Document(user: UserId, fileName: string, downloads: bool)
    | ButtonPress(user: UserId, token: string, constructs: bool, logsIn: bool, answers: bool)
    | StatusQuery(constructs: bool, logsIn: bool, answers: bool, jobs: seq<Job>)

  function Apply(b: Bot, e: Event): Step
  {
    match e
    case TextMessage(u, text) => HandleMagnet(b, u, text)
    case Document(u, name, downloads) => HandleTorrentFile(b, u, name, downloads)
    case ButtonPress(u, token, constructs, logsIn, answers) => ButtonCallback(b, u, token, constructs, logsIn, answers)
    case StatusQuery(constructs, logsIn, answers, jobs) => StatusRequest(b, constructs, logsIn, answers, jobs)
  }

  /** The updates handled one after another, each to completion. */
  function Run(b: Bot, events: seq<Event>): Bot
    decreases |events|
  {
    if events == [] then b else Run(Apply(b, events[0]).bot, events[1..])
  }

  // ---------------------------------------------------------------------
  // Invariant
  // ---------------------------------------------------------------------

  predicate WellFormed(e: Pending)
  {
    match e
    case Magnet(link) => StartsWith(link, MagnetPrefix)
    case File(path) => EndsWith(path, TorrentSuffix)
  }

  /** A request the bot may have issued. An add request carries a validated
      link or file and one of the two configured destinations; login and
      listing requests carry nothing to check. */
  predicate Sanctioned(s: Settings, k: Call)
  {
    match k
    case LogIn => true
    case ListTorrents => true
    case AddUrls(link, savePath, category) => StartsWith(link, MagnetPrefix) && IsDestination(s, savePath, category)
    case AddFiles(path, savePath, category) => EndsWith(path, TorrentSuffix) && IsDestination(s, savePath, category)
  }

  /** Every pending entry passed validation, every staged file is a
      `.torrent`, and every request issued to the library is sanctioned. */
  ghost predicate Valid(b: Bot)
  {
    && (forall u | u in b.pending :: WellFormed(b.pending[u]))
    && (forall p | p in b.staged :: EndsWith(p, TorrentSuffix))
    && (forall k | k in b.log :: Sanctioned(b.settings, k))
  }

  lemma StartIsValid(settings: Settings, config: Config)
    ensures Valid(Start(settings, config))
    ensures Start(settings, config).pending == map[]
    ensures Start(settings, config).client.session.None?
  {
  }

  /** A button press keeps the invariant: what it sends is a login and the
      pending entry's own request, which passed validation, for one of the
      configured destinations. */
  lemma ButtonKeepsValid(b: Bot, user: UserId, token: string, constructs: bool, logsIn: bool, answers: bool)
    requires Valid(b)
    ensures Valid(ButtonCallback(b, user, token, constructs, logsIn, answers).bot)
  {
    var r := ButtonCallback(b, user, token, constructs, logsIn, answers);
    if user in b.pending && Resolve(token).Some? {
      var f := Resolve(token).value;
      CategoryIdentifiesFolder(b.settings, f, f);
      forall k | k in r.bot.log ensures Sanctioned(b.settings, k) {
        if k !in b.log {
          assert k == LogIn || k == Request(b.pending[user], SavePath(b.settings, f), Category(f));
        }
      }
    }
  }

  lemma StatusKeepsValid(b: Bot, constructs: bool, logsIn: bool, answers: bool, jobs: seq<Job>)
    requires Valid(b)
    ensures Valid(StatusRequest(b, constructs, logsIn, answers, jobs).bot)
  {
    var r := StatusRequest(b, constructs, logsIn, answers, jobs);
    forall k | k in r.bot.log ensures Sanctioned(b.settings, k) {
      if k !in b.log {
        assert r.bot.log == b.log + r.bot.log[|b.log|..];
        assert k in r.bot.log[|b.log|..];
      }
    }
  }

  lemma {:induction false} ApplyKeepsValid(b: Bot, e: Event)
    requires Valid(b)
    ensures Valid(Apply(b, e).bot)
  {
    match e
    case TextMessage(u, text) =>
    case Document(u, name, downloads) =>
    case ButtonPress(u, token, constructs, logsIn, answers) =>
      ButtonKeepsValid(b, u, token, constructs, logsIn, answers);
    case StatusQuery(constructs, logsIn, answers, jobs) =>
      StatusKeepsValid(b, constructs, logsIn, answers, jobs);
  }

  /** Whatever the updates and the environment's answers, the invariant
      holds after every run from a valid state. */
  lemma {:induction false} RunKeepsValid(b: Bot, events: seq<Event>)
    requires Valid(b)
    ensures Valid(Run(b, events))
    ensures Run(b, events).settings == b.settings
    decreases |events|
  {
    if events != [] {
      ApplyKeepsValid(b, events[0]);
      ApplyKeepsSettings(b, events[0]);
      RunKeepsValid(Apply(b, events[0]).bot, events[1..]);
    }
  }

  lemma ApplyKeepsSettings(b: Bot, e: Event)
    ensures Apply(b, e).bot.settings == b.settings
  {
  }
}

=== FILE: options.dfy ===
/** The optional value used where the source returns `None` or reads a missing key. */
module Options {

  datatype Option<+T> = None | Some(value: T) {

    /** The carried value, or `default` when there is none (Python's `dict.get(key, default)`). */
    function GetOr(default: T): (r: T)
      ensures Some? ==> r == value
      ensures None? ==> r == default
    {
      match this
      case Some(v) => v
      case None => default
    }
  }
}

=== FILE: scenarios.dfy ===
/** Properties of the intake that relate several updates: what a second
    submission or a second button press does, what a failed connect leaves
    behind, how two users' uploads of the same file name interfere, and what
    the daemon can ever receive. */
module Scenarios {
  import opened Text
  import opened Daemon
  import opened Intake

  /** Last write wins: of two accepted submissions from one user, only the
      second is pending afterwards, and no other user's entry moved. */
  lemma ResubmissionReplaces(b: Bot, user: UserId, first: string, fileName: string)
    requires StartsWith(first, MagnetPrefix)
    requires EndsWith(fileName, TorrentSuffix)
    ensures var b1 := HandleMagnet(b, user, first).bot;
      var b2 := HandleTorrentFile(b1, user, fileName, true).bot;
      && b2.pending[user] == File(StagedPath(b.settings, fileName))
      && b2.pending - {user} == b.pending - {user}
  {
  }

  /** A pending entry is taken once: after a press that got through the
      connect, pressing any button again finds nothing and changes nothing. */
  lemma TakenOnlyOnce(b: Bot, user: UserId, token: string, answers: bool,
                      token2: string, constructs2: bool, logsIn2: bool, answers2: bool)
    requires user in b.pending
    requires Resolve(token).Some?
    ensures var b1 := ButtonCallback(b, user, token, true, true, answers).bot;
      && user !in b1.pending
      && ButtonCallback(b1, user, token2, constructs2, logsIn2, answers2) == Step(b1, NoPending)
  {
  }

  /** A failed connect leaves the entry in place, so pressing the button
      again once the daemon is reachable hands over the same torrent. */
  lemma RetryAfterConnectFailure(b: Bot, user: UserId, f: Folder, logsIn: bool)
    requires user in b.pending
    requires b.pending[user].Magnet?
    ensures var first := ButtonCallback(b, user, Token(f), true, false, true);
      var second := ButtonCallback(first.bot, user, Token(f), true, true, true);
      && first.reply == ConnectFailed
      && user in first.bot.pending
      && second.reply == Added(f, SavePath(b.settings, f))
      && second.bot.log[|second.bot.log| - 1] == AddUrls(b.pending[user].link, SavePath(b.settings, f), Category(f))
  {
    ResolveInvertsToken(f);
  }

  /** A button that names no folder leaves the entry in place, and a
      recognised button pressed afterwards still dispatches it. */
  lemma RetryAfterInvalidSelection(b: Bot, user: UserId, token: string, f: Folder, answers: bool)
    requires user in b.pending
    requires token != Token(Movies) && token != Token(TvShows)
    ensures var first := ButtonCallback(b, user, token, true, true, answers);
      var second := ButtonCallback(first.bot, user, Token(f), true, true, answers);
      && first == Step(b, InvalidSelection)
      && user !in second.bot.pending
      && (second.reply.Added? || second.reply.AddFailed?)
  {
    ResolveInvertsToken(f);
  }

  /** After a dispatch attempt on a staged file, the file is gone from the
      temporary directory and the entry from the map, whether the daemon
      took the torrent or not. */
  lemma FileCleanedUpEitherWay(b: Bot, user: UserId, f: Folder, answers: bool)
    requires user in b.pending
    requires b.pending[user].File?
    ensures var r := ButtonCallback(b, user, Token(f), true, true, answers);
      && b.pending[user].path !in r.bot.staged
      && user !in r.bot.pending
      && (r.reply.Added? <==> answers && b.pending[user].path in b.staged)
  {
    ResolveInvertsToken(f);
  }

  /** A file entry whose staged file is gone cannot be handed over: the
      press connects, fails before any add request, and drops the entry. */
  lemma MissingStagedFileFails(b: Bot, user: UserId, f: Folder, answers: bool)
    requires user in b.pending && b.pending[user].File?
    requires b.pending[user].path !in b.staged
    ensures var r := ButtonCallback(b, user, Token(f), true, true, answers);
      && r.reply == AddFailed
      && r.bot.log == b.log + [LogIn]
      && user !in r.bot.pending
  {
    ResolveInvertsToken(f);
  }

  /** Two users uploading documents with the same file name end up with
      the same staged path pending. */
  lemma SameNameSharesStagedPath(b: Bot, alice: UserId, bob: UserId, fileName: string)
    requires alice != bob
    requires EndsWith(fileName, TorrentSuffix)
    ensures var b2 := HandleTorrentFile(HandleTorrentFile(b, alice, fileName, true).bot, bob, fileName, true).bot;
      && b2.pending[alice] == b2.pending[bob] == File(StagedPath(b.settings, fileName))
      && StagedPath(b.settings, fileName) in b2.staged
  {
    var b1 := HandleTorrentFile(b, alice, fileName, true).bot;
    var b2 := HandleTorrentFile(b1, bob, fileName, true).bot;
    assert alice in b2.pending - {bob};
  }

  /** When two users wait on the same staged file, one user's dispatch
      deletes it, so the other's later dispatch fails although the daemon
      would have accepted it, and no add request is sent for it. */
  lemma SharedStagedPathLost(b: Bot, alice: UserId, bob: UserId, f: Folder, g: Folder)
    requires alice != bob
    requires alice in b.pending && bob in b.pending
    requires b.pending[alice] == b.pending[bob] && b.pending[alice].File?
    requires b.pending[alice].path in b.staged
    ensures var first := ButtonCallback(b, alice, Token(f), true, true, true);
      var second := ButtonCallback(first.bot, bob, Token(g), true, true, true);
      && first.reply == Added(f, SavePath(b.settings, f))
      && second.reply == AddFailed
      && second.bot.log == first.bot.log + [LogIn]
  {
    ResolveInvertsToken(f);
    var first := ButtonCallback(b, alice, Token(f), true, true, true);
    assert bob in first.bot.pending && first.bot.pending[bob] == b.pending[bob] by {
      assert bob in b.pending - {alice};
    }
    MissingStagedFileFails(first.bot, bob, g, true);
  }

  /** A new submission replacing a pending file entry does not delete that
      file: it stays staged with no entry pointing at it. */
  lemma ReplacedFileStaysStaged(b: Bot, user: UserId, text: string)
    requires user in b.pending && b.pending[user].File?
    requires b.pending[user].path in b.staged
    requires forall u | u in b.pending && u != user :: b.pending[u] != b.pending[user]
    requires StartsWith(text, MagnetPrefix)
    ensures var b1 := HandleMagnet(b, user, text).bot;
      && b.pending[user].path in b1.staged
      && forall u | u in b1.pending :: b1.pending[u] != File(b.pending[user].path)
  {
    var b1 := HandleMagnet(b, user, text).bot;
    forall u | u in b1.pending ensures b1.pending[u] != File(b.pending[user].path) {
      if u != user {
        assert u in b1.pending - {user};
      }
    }
  }

  /** A magnet link sent, "Movies" pressed, the daemon reachable and willing:
      the bot reports the movies folder, the daemon got the link with that
      folder and category, and nothing is left pending. */
  lemma MagnetToMovies(settings: Settings, config: Config, user: UserId)
    ensures var link := "magnet:?xt=urn:btih:ABC";
      var b := Run(Start(settings, config),
                   [TextMessage(user, link), ButtonPress(user, "folder_movies", true, true, true)]);
      && user !in b.pending
      && b.log == [LogIn, AddUrls(link, settings.moviesFolder, "Movies")]
      && ButtonCallback(HandleMagnet(Start(settings, config), user, link).bot, user, "folder_movies", true, true, true).reply
         == Added(Movies, settings.moviesFolder)
  {
    var link := "magnet:?xt=urn:btih:ABC";
    assert StartsWith(link, MagnetPrefix);
    var b0 := Start(settings, config);
    var press := ButtonPress(user, "folder_movies", true, true, true);
    var b1 := HandleMagnet(b0, user, link).bot;
    assert b1.pending[user] == Magnet(link);
    var b2 := ButtonCallback(b1, user, "folder_movies", true, true, true).bot;
    assert b2.log == [LogIn, AddUrls(link, settings.moviesFolder, "Movies")];
    assert Run(b1, [press]) == b2 by { assert [press][1..] == []; }
    assert [TextMessage(user, link), press][1..] == [press];
  }

  /** A magnet link sent, a folder pressed, the daemon unreachable: the bot
      reports the failure, nothing was added, and the link is still pending. */
  lemma MagnetWhileDaemonDown(settings: Settings, config: Config, user: UserId, f: Folder)
    ensures var link := "magnet:?xt=urn:btih:ABC";
      var b := Run(Start(settings, config),
                   [TextMessage(user, link), ButtonPress(user, Token(f), false, false, true)]);
      && b.pending == map[user := Magnet(link)]
      && b.log == []
      && b.client.session.None?
  {
    var link := "magnet:?xt=urn:btih:ABC";
    assert StartsWith(link, MagnetPrefix);
    ResolveInvertsToken(f);
    var b0 := Start(settings, config);
    var press := ButtonPress(user, Token(f), false, false, true);
    var b1 := HandleMagnet(b0, user, link).bot;
    assert b1.pending == map[user := Magnet(link)];
    var b2 := ButtonCallback(b1, user, Token(f), false, false, true).bot;
    assert b2 == b1;
    assert Run(b1, [press]) == b2 by { assert [press][1..] == []; }
    assert [TextMessage(user, link), press][1..] == [press];
  }

  /** Whatever users send and whatever the daemon answers, every add
      request a process ever issued to the library carries a validated
      magnet link or `.torrent` file and one of the two configured
      destinations, and everything pending has passed validation. Login and
      listing requests carry nothing to check. */
  lemma DaemonSeesOnlyValidatedInput(settings: Settings, config: Config, events: seq<Event>)
    ensures var b := Run(Start(settings, config), events);
      && (forall k | k in b.log :: Sanctioned(settings, k))
      && (forall u | u in b.pending :: WellFormed(b.pending[u]))
  {
    StartIsValid(settings, config);
    RunKeepsValid(Start(settings, config), events);
  }
}

=== FILE: status.dfy ===
/** The `/status` report: connect, list the daemon's jobs, and show the five
    most recently added ones with a shortened name, a state glyph and a
    category label. Progress, rates and uploaded volume are floating-point
    renderings and are not part of this model. */
module Status {
  import opened Options
  import opened Daemon

  /** The sort key: `added_on`, or 0 when the job has none. */
  function Key(j: Job): int
  {
    j.addedOn.GetOr(0)
  }

  /** Non-increasing in `added_on`: most recent first. */
  ghost predicate SortedDesc(s: seq<Job>)
  {
    forall i, j | 0 <= i < j < |s| :: Key(s[i]) >= Key(s[j])
  }

  /** The jobs of `s` whose key is `k`, in the order of `s`. */
  function WithKey(s: seq<Job>, k: int): (r: seq<Job>)
    ensures |r| <= |s|
  {
    if s == [] then []
    else (if Key(s[0]) == k then [s[0]] else []) + WithKey(s[1..], k)
  }

  /** Inserts `x` in front of the first job whose key is not greater than its
      own, so `x` precedes every job with an equal key. */
  function Insert(x: Job, s: seq<Job>): (r: seq<Job>)
    ensures |r| == |s| + 1
  {
    if s == [] then [x]
    else if Key(s[0]) <= Key(x) then [x] + s
    else [s[0]] + Insert(x, s[1..])
  }

  lemma {:induction false} InsertPermutes(x: Job, s: seq<Job>)
    ensures multiset(Insert(x, s)) == multiset(s) + multiset{x}
  {
    if s == [] {
      assert Insert(x, s) == [x];
    } else if Key(s[0]) <= Key(x) {
      assert Insert(x, s) == [x] + s;
    } else {
      var t := Insert(x, s[1..]);
      InsertPermutes(x, s[1..]);
      calc {
        multiset(Insert(x, s));
        { assert Insert(x, s) == [s[0]] + t; }
        multiset{s[0]} + multiset(t);
        multiset{s[0]} + multiset(s[1..]) + multiset{x};
        { assert s == [s[0]] + s[1..]; }
        multiset(s) + multiset{x};
      }
    }
  }

  /** A job no older than the head of a descending sequence can go in front. */
  lemma ConsKeepsSorted(h: Job, t: seq<Job>)
    requires SortedDesc(t)
    requires t != [] ==> Key(h) >= Key(t[0])
    ensures SortedDesc([h] + t)
  {
    var r := [h] + t;
    forall i, j | 0 <= i < j < |r| ensures Key(r[i]) >= Key(r[j]) {
      assert r[j] == t[j - 1];
      if i > 0 {
        assert r[i] == t[i - 1];
      }
    }
  }

  /** An insertion starts with the inserted job or with the old head. */
  lemma InsertHead(x: Job, s: seq<Job>)
    ensures Insert(x, s)[0] == x || (s != [] && Insert(x, s)[0] == s[0])
  {
  }

  lemma {:induction false} InsertKeepsSorted(x: Job, s: seq<Job>)
    requires SortedDesc(s)
    ensures SortedDesc(Insert(x, s))
  {
    if s == [] {
    } else if Key(s[0]) <= Key(x) {
      ConsKeepsSorted(x, s);
    } else {
      var tail := s[1..];
      assert SortedDesc(tail) by {
        forall i, j | 0 <= i < j < |tail| ensures Key(tail[i]) >= Key(tail[j]) {
          assert tail[i] == s[i + 1] && tail[j] == s[j + 1];
        }
      }
      InsertKeepsSorted(x, tail);
      InsertHead(x, tail);
      assert tail != [] ==> Key(s[0]) >= Key(tail[0]) by {
        if tail != [] { assert tail[0] == s[1]; }
      }
      ConsKeepsSorted(s[0], Insert(x, tail));
    }
  }

  /** Python's `sorted(jobs, key=added_on, reverse=True)`: a stable sort,
      most recent first. */
  function SortByAdded(s: seq<Job>): (r: seq<Job>)
    ensures |r| == |s|
  {
    if s == [] then [] else Insert(s[0], SortByAdded(s[1..]))
  }

  /** The sort returns the daemon's jobs, each as often as it was listed,
      most recent first. */
  lemma {:induction false} SortIsOrderedPermutation(s: seq<Job>)
    ensures multiset(SortByAdded(s)) == multiset(s)
    ensures SortedDesc(SortByAdded(s))
  {
    if s != [] {
      SortIsOrderedPermutation(s[1..]);
      InsertPermutes(s[0], SortByAdded(s[1..]));
      InsertKeepsSorted(s[0], SortByAdded(s[1..]));
      assert s == [s[0]] + s[1..];
    }
  }

  lemma WithKeyCons(h: Job, t: seq<Job>, k: int)
    ensures WithKey([h] + t, k) == (if Key(h) == k then [h] else []) + WithKey(t, k)
  {
    assert ([h] + t)[1..] == t;
  }

  lemma {:induction false} InsertWithKey(x: Job, s: seq<Job>, k: int)
    ensures WithKey(Insert(x, s), k) == (if Key(x) == k then [x] else []) + WithKey(s, k)
  {
    if s == [] {
      WithKeyCons(x, [], k);
    } else if Key(s[0]) <= Key(x) {
      WithKeyCons(x, s, k);
    } else {
      var t := Insert(x, s[1..]);
      assert Insert(x, s) == [s[0]] + t;
      InsertWithKey(x, s[1..], k);
      WithKeyCons(s[0], t, k);
      WithKeyCons(s[0], s[1..], k);
      assert s == [s[0]] + s[1..];
      if Key(x) == k {
        // s[0] is strictly more recent than x, so it does not carry key k
        assert WithKey(Insert(x, s), k) == WithKey(t, k) == [x] + WithKey(s[1..], k);
      } else {
        assert WithKey(t, k) == WithKey(s[1..], k);
      }
    }
  }

  /** Stability: jobs with the same `added_on` keep their daemon order. */
  lemma {:induction false} SortIsStable(s: seq<Job>, k: int)
    ensures WithKey(SortByAdded(s), k) == WithKey(s, k)
  {
    if s != [] {
      SortIsStable(s[1..], k);
      InsertWithKey(s[0], SortByAdded(s[1..]), k);
    }
  }

  function Min(a: int, b: int): int
  {
    if a <= b then a else b
  }

  /** In a descending sequence, every job of a prefix has a key no smaller
      than any job left after it. */
  lemma PrefixDominates(s: seq<Job>, n: nat, x: Job, y: Job)
    requires SortedDesc(s)
    requires n <= |s|
    requires x in s[..n]
    requires y in multiset(s[n..])
    ensures Key(x) >= Key(y)
  {
    var i :| 0 <= i < n && s[..n][i] == x;
    var j :| 0 <= j < |s| - n && s[n..][j] == y;
    assert s[i] == x && s[n + j] == y;
  }

  /** `sorted_torrents[:5]`. */
  function LastFive(jobs: seq<Job>): (r: seq<Job>)
    ensures |r| == Min(5, |jobs|)
  {
    SortByAdded(jobs)[..Min(5, |jobs|)]
  }

  /** The five shown are jobs of the listing, most recent first. */
  lemma LastFiveIsSortedSublist(jobs: seq<Job>)
    ensures multiset(LastFive(jobs)) <= multiset(jobs)
    ensures SortedDesc(LastFive(jobs))
  {
    var sorted := SortByAdded(jobs);
    SortIsOrderedPermutation(jobs);
    var n := Min(5, |jobs|);
    var top := sorted[..n];
    assert sorted == top + sorted[n..];
    forall i, j | 0 <= i < j < |top| ensures Key(top[i]) >= Key(top[j]) {
      assert top[i] == sorted[i] && top[j] == sorted[j];
    }
  }

  /** What a prefix leaves of a sequence's jobs is its suffix. */
  lemma OutsidePrefixIsSuffix(s: seq<Job>, n: nat, y: Job)
    requires n <= |s|
    requires y in multiset(s) - multiset(s[..n])
    ensures y in multiset(s[n..])
  {
    assert s == s[..n] + s[n..];
  }

  /** No job left out of the five was added later than any shown one. */
  lemma LastFiveAreMostRecent(jobs: seq<Job>, x: Job, y: Job)
    requires x in LastFive(jobs)
    requires y in multiset(jobs) - multiset(LastFive(jobs))
    ensures Key(x) >= Key(y)
  {
    var sorted := SortByAdded(jobs);
    var n := Min(5, |jobs|);
    SortIsOrderedPermutation(jobs);
    OutsidePrefixIsSuffix(sorted, n, y);
    PrefixDominates(sorted, n, x, y);
  }

  /** The emoji of the state table, by kind. */
  datatype Glyph = Down | Up | Pause | Hourglass | Magnifier | Cross | Disk | Package

  /** The daemon states the table names; every other state shows `Package`. */
  const KnownStates: set<string> :=
    {"downloading", "uploading", "stalledDL", "stalledUP", "pausedDL", "pausedUP",
     "queuedDL", "queuedUP", "checkingDL", "checkingUP", "error", "missingFiles", "allocating"}

  /** The state table with its `Package` fallback. */
  function GlyphFor(state: string): Glyph
  {
    match state
    case "downloading" => Down
    case "uploading" => Up
    case "stalledDL" => Pause
    case "stalledUP" => Pause
    case "pausedDL" => Pause
    case "pausedUP" => Pause
    case "queuedDL" => Hourglass
    case "queuedUP" => Hourglass
    case "checkingDL" => Magnifier
    case "checkingUP" => Magnifier
    case "error" => Cross
    case "missingFiles" => Cross
    case "allocating" => Disk
    case _ => Package
  }

  /** Exactly the states outside the table get the fallback glyph. */
  lemma FallbackExactlyForUnknown(state: string)
    ensures GlyphFor(state) == Package <==> state !in KnownStates
  {
  }

  /** Names longer than 40 characters are cut to 40 and marked with `...`. */
  function DisplayName(name: string): (r: string)
    ensures |r| <= 43
    ensures |name| <= 40 ==> r == name
    ensures |name| > 40 ==> |r| == 43 && r[..40] == name[..40] && r[40..] == "..."
  {
    if |name| > 40 then name[..40] + "..." else name
  }

  /** `category or 'None'`. */
  function CategoryLabel(category: string): (r: string)
    ensures r != ""
    ensures category != "" ==> r == category
    ensures category == "" ==> r == "None"
  {
    if category == "" then "None" else category
  }

  /** One numbered entry of the listing. */
  datatype Row = Row(index: nat, glyph: Glyph, name: string, category: string)

  datatype Report = NotConnected | NoTorrents | Listing(total: nat, rows: seq<Row>)

  datatype Polled = Polled(client: Client, report: Report, calls: seq<Call>)

  function RowFor(index: nat, j: Job): Row
  {
    Row(index, GlyphFor(j.state), DisplayName(j.name), CategoryLabel(j.category))
  }

  /** `status_command`. A listing that fails after a successful connect is
      shown like an empty one, as "no active torrents". */
  function StatusCommand(c: Client, constructs: bool, logsIn: bool, answers: bool, jobs: seq<Job>): (r: Polled)
    ensures r.report.NotConnected? <==> !(constructs && logsIn)
    ensures r.report.NoTorrents? <==> constructs && logsIn && (!answers || jobs == [])
    ensures r.report.Listing? ==>
      && r.report.total == |jobs|
      && |r.report.rows| == Min(5, |jobs|)
      && forall i | 0 <= i < |r.report.rows| :: r.report.rows[i] == RowFor(i + 1, LastFive(jobs)[i])
    ensures r.client == Connect(c, constructs, logsIn).client
    ensures constructs && logsIn ==> r.calls == [LogIn, ListTorrents]
    ensures constructs && !logsIn ==> r.calls == [LogIn]
    ensures !constructs ==> r.calls == []
  {
    var conn := Connect(c, constructs, logsIn);
    if !conn.ok then Polled(conn.client, NotConnected, conn.calls)
    else
      var info := TorrentsInfo(conn.client, answers, jobs);
      if info.jobs.None? || info.jobs.value == [] then Polled(conn.client, NoTorrents, conn.calls + info.calls)
      else
        var top := LastFive(info.jobs.value);
        Polled(conn.client, Listing(|jobs|, seq(|top|, i requires 0 <= i < |top| => RowFor(i + 1, top[i]))),
               conn.calls + info.calls)
  }

  /** The rows of a listing are numbered from 1, show at most 43-character
      names, and come most recent first. */
  lemma ListingShape(c: Client, constructs: bool, logsIn: bool, answers: bool, jobs: seq<Job>)
    ensures var r := StatusCommand(c, constructs, logsIn, answers, jobs);
      r.report.Listing? ==>
        && 0 < |r.report.rows| <= 5
        && (forall i | 0 <= i < |r.report.rows| :: r.report.rows[i].index == i + 1 && |r.report.rows[i].name| <= 43)
        && (forall i, j | 0 <= i < j < |r.report.rows| :: Key(LastFive(jobs)[i]) >= Key(LastFive(jobs)[j]))
  {
    LastFiveIsSortedSublist(jobs);
  }

  /** A downloading job without a category, added at `at`. */
  function AddedAt(at: int): Job
  {
    Job("torrent", Some(at), "downloading", "")
  }

  lemma SortCons(x: Job, s: seq<Job>)
    ensures SortByAdded([x] + s) == Insert(x, SortByAdded(s))
  {
    assert ([x] + s)[1..] == s;
  }

  lemma InsertFront(x: Job, s: seq<Job>)
    requires s == [] || Key(s[0]) <= Key(x)
    ensures Insert(x, s) == [x] + s
  {
  }

  lemma InsertPast(x: Job, h: Job, t: seq<Job>)
    requires Key(h) > Key(x)
    ensures Insert(x, [h] + t) == [h] + Insert(x, t)
  {
    assert ([h] + t)[1..] == t;
  }

  /** The sort of the example's last four jobs (added at 30, 20, 5, 40). */
  lemma SortedTail4()
    ensures SortByAdded([AddedAt(30), AddedAt(20), AddedAt(5), AddedAt(40)])
         == [AddedAt(40), AddedAt(30), AddedAt(20), AddedAt(5)]
  {
    var j30, j20, j5, j40 := AddedAt(30), AddedAt(20), AddedAt(5), AddedAt(40);
    SortCons(j40, []);
    InsertFront(j40, []);
    SortCons(j5, [j40]);
    InsertPast(j5, j40, []);
    InsertFront(j5, []);
    SortCons(j20, [j5, j40]);
    InsertPast(j20, j40, [j5]);
    InsertFront(j20, [j5]);
    SortCons(j30, [j20, j5, j40]);
    InsertPast(j30, j40, [j20, j5]);
    InsertFront(j30, [j20, j5]);
  }

  /** The job added at 10 goes between those added at 20 and 5. */
  lemma InsertTenExample()
    ensures Insert(AddedAt(10), [AddedAt(50), AddedAt(40), AddedAt(30), AddedAt(20), AddedAt(5)])
         == [AddedAt(50), AddedAt(40), AddedAt(30), AddedAt(20), AddedAt(10), AddedAt(5)]
  {
    var j10, j50, j40, j30, j20, j5 := AddedAt(10), AddedAt(50), AddedAt(40), AddedAt(30), AddedAt(20), AddedAt(5);
    InsertFront(j10, [j5]);
    InsertPast(j10, j20, [j5]);
    InsertPast(j10, j30, [j20, j5]);
    InsertPast(j10, j40, [j30, j20, j5]);
    InsertPast(j10, j50, [j40, j30, j20, j5]);
  }

  /** The sort of all six jobs of the example. */
  lemma SortedAll6()
    ensures SortByAdded([AddedAt(10), AddedAt(50), AddedAt(30), AddedAt(20), AddedAt(5), AddedAt(40)])
         == [AddedAt(50), AddedAt(40), AddedAt(30), AddedAt(20), AddedAt(10), AddedAt(5)]
  {
    var j10, j50, j30, j20, j5, j40 := AddedAt(10), AddedAt(50), AddedAt(30), AddedAt(20), AddedAt(5), AddedAt(40);
    SortedTail4();
    SortCons(j50, [j30, j20, j5, j40]);
    InsertFront(j50, [j40, j30, j20, j5]);
    SortCons(j10, [j50, j30, j20, j5, j40]);
    InsertTenExample();
  }

  /** The example of added timestamps 10, 50, 30, 20, 5, 40: the five shown
      are 50, 40, 30, 20 and 10, and the job added at 5 is left out. */
  lemma TopFiveExample()
    ensures LastFive([AddedAt(10), AddedAt(50), AddedAt(30), AddedAt(20), AddedAt(5), AddedAt(40)])
         == [AddedAt(50), AddedAt(40), AddedAt(30), AddedAt(20), AddedAt(10)]
  {
    SortedAll6();
    assert [AddedAt(50), AddedAt(40), AddedAt(30), AddedAt(20), AddedAt(10), AddedAt(5)][..5]
        == [AddedAt(50), AddedAt(40), AddedAt(30), AddedAt(20), AddedAt(10)];
  }
}

=== FILE: text.dfy ===
/** The string helpers the source borrows from Python: `str.startswith`,
    `str.endswith` and the POSIX `os.path.join` of two components. */
module Text {

  predicate StartsWith(s: string, prefix: string)
  {
    |prefix| <= |s| && s[..|prefix|] == prefix
  }

  predicate EndsWith(s: string, suffix: string)
  {
    |suffix| <= |s| && s[|s| - |suffix|..] == suffix
  }

  /** Being a suffix is transitive: what ends a suffix of `s` ends `s`. */
  lemma EndsWithTransitive(s: string, mid: string, suffix: string)
    requires EndsWith(s, mid)
    requires EndsWith(mid, suffix)
    ensures EndsWith(s, suffix)
  {
    assert s[|s| - |suffix|..] == s[|s| - |mid|..][|mid| - |suffix|..];
  }

  /** `os.path.join(dir, name)`: an absolute `name` replaces `dir`; otherwise
      a separator is inserted unless `dir` is empty or already ends in one. */
  function Join(dir: string, name: string): (p: string)
    ensures StartsWith(name, "/") ==> p == name
    ensures !StartsWith(name, "/") ==> StartsWith(p, dir)
    ensures EndsWith(p, name)
  {
    if StartsWith(name, "/") then name
    else if dir == [] || EndsWith(dir, "/") then
      assert (dir + name)[..|dir|] == dir;
      assert (dir + name)[|dir|..] == name;
      dir + name
    else
      assert (dir + "/" + name)[..|dir|] == dir;
      assert (dir + "/" + name)[|dir| + 1..] == name;
      dir + "/" + name
  }

  /** Joining keeps every suffix of the last component, so a joined
      `x.torrent` name still ends in `.torrent`. */
  lemma JoinKeepsSuffix(dir: string, name: string, suffix: string)
    requires EndsWith(name, suffix)
    ensures EndsWith(Join(dir, name), suffix)
  {
    EndsWithTransitive(Join(dir, name), name, suffix);
  }
}
